=== FILE: README.md ===
# Pokémon paging components — a Dafny model

This project models the logic inside the three Pokémon views of the blog
section, and the fetcher that the infinite scroll and the modal share; the
pagination view fetches its listing with `fetch` directly.

- **`fetchPokemonData`** (module `PokemonApi`). Page `pageParam` (default 0) of
  size `limit` is fetched as one GET per id, ids `pageParam*limit+1 ..
  pageParam*limit+limit`, all awaited together. Each payload may go through a
  `dataMapper`. The result carries the data, `currentPage = pageParam` and
  `nextPage`.
- **Pagination** (module `Pagination`). The view holds a listing fetched once,
  a 1-based current page and a 0-based page group. From these it derives:
  - the items of the page, through `Array.prototype.slice`;
  - `totalPages`, as the integer ceiling of `POKEMON_LIMIT / POKEMON_PER_PAGE`;
  - the window of page buttons;
  - the guarded "<" and ">" group controls;
  - the sprite id of each shown item.

  The three constants are a `Config`. `Pagination.Source` holds the component's
  values: 50, 1 and 10.
- **Infinite scroll** (module `InfiniteScroll`). The query library's paging
  loop runs over a page query:
  - the first page param is 0, and each next one is the last page's `nextPage`;
  - the component's query uses limit 30 for page 0 and 10 for every other page;
  - the table rows are every page's data, in page order.
- **Modal gallery** (module `Modal`).
  - A fixed fetch gets page 0 with limit 3, mapping `sprites.front_default` to
    `image`.
  - A click on a thumbnail selects that Pokémon and opens the dialog.
  - The backdrop and the X button close the dialog and keep the selection.
  - A click in the dialog body stops propagation and changes nothing.

The network is a parameter. It is a total function from a request (URL prefix
and id) to an optional payload, where `None` is a rejected request.
`Promise.all` is modelled as all-or-nothing evaluation of the requests in
order. Pagination and the modal are small immutable states with a `Step`
function over their events and a `Run` over event sequences; invariant lemmas
cover every reachable state. The infinite scroll has no state of its own: the
query library's paging loop is `InfiniteScroll.LoadPages(n, q)`, the data after
`n` successive fetches.

`nextPage` is typed `number | null` and computed as
`data.length === limit ? pageParam + 1 : null` (src/features/Blog/api/pokemon.ts
line 32). Because `Promise.all` rejects as a whole, a resolved call has exactly
`max(limit, 0)` items, so `nextPage` is `null` only for a negative `limit`,
where `Array.from` issues no requests at all (`PokemonApi.FetchPokemonData`).

## Model

| member | source | states |
|---|---|---|
| PokemonApi.PageParamOf | src/features/Blog/api/pokemon.ts:12 | its contract is the definition (an absent page param is 0); `PokemonApi.FetchPokemonData` and `InfiniteScroll.QueryFnPage` use it to fix `currentPage` |
| PokemonApi.RequestCount | src/features/Blog/api/pokemon.ts:23 | its contract is the definition (`Array.from` turns a negative length into 0); `PokemonApi.RequestedIds` and `PokemonApi.FetchPokemonData` state what it means for the ids and the data length |
| PokemonApi.RequestedIds | src/features/Blog/api/pokemon.ts:20-23 | one id per request, `max(limit, 0)` of them, id i being `pageParam*limit + i + 1` |
| PokemonApi.AwaitAll | src/features/Blog/api/pokemon.ts:22-24 | the batch resolves iff every request is served, and then holds each response in request order; one rejection rejects the whole batch |
| PokemonApi.FetchIds | src/features/Blog/api/pokemon.ts:22-32 | for fixed ids, resolves iff every id is served; the data then has one mapped payload per id in order, reports page `p`, and offers `p + 1` iff exactly `limit` items came back |
| PokemonApi.FetchPokemonData | src/features/Blog/api/pokemon.ts:10-34 | resolves iff every requested id is served; data has `max(limit, 0)` entries, entry i being the mapper applied to the payload of id `pageParam*limit+i+1`; `currentPage` is the page param (0 by default); `nextPage` is present iff `limit >= 0`, and then equals `pageParam + 1` |
| PokemonApi.FetchRaw | src/features/Blog/api/pokemon.ts:26-27 | without a mapper, entry i of the data is exactly the response for the i-th requested id |
| PokemonApi.ConsecutivePagesContiguous | src/features/Blog/api/pokemon.ts:20-23 | for a fixed limit, pages p and p+1 together request exactly `p*limit+1 .. (p+2)*limit`, and no id of page p is requested again by page p+1 |
| Common.SliceIndex | src/features/Blog/components/Pagination.tsx:33-36 | its contract is the definition of how `slice` clamps and counts back negative arguments; `Pagination.CurrentPokemonIsPageSlice` gives it meaning for the page view |
| Common.Slice | src/features/Blog/components/Pagination.tsx:33-36 | its contract is the definition of `Array.prototype.slice` for integer arguments; `Pagination.CurrentPokemonIsPageSlice` gives it meaning for the page view |
| Pagination.CeilDiv | src/features/Blog/components/Pagination.tsx:39 | the result q is the ceiling of a/b: `a <= q*b` and `(q-1)*b < a` |
| Pagination.TotalPages | src/features/Blog/components/Pagination.tsx:39 | at least one page, and exactly enough pages of `POKEMON_PER_PAGE` to hold `POKEMON_LIMIT` items |
| Pagination.StartPage | src/features/Blog/components/Pagination.tsx:42 | no contract: the definition `group*PAGES_PER_GROUP + 1`; `Pagination.ButtonWindow` states what it means |
| Pagination.EndPage | src/features/Blog/components/Pagination.tsx:43 | the end page is the smaller of the group's last slot and `totalPages`: at most each, and equal to one of them |
| Pagination.PageButtons | src/features/Blog/components/Pagination.tsx:87-88 | the row is drawn iff its length `endPage - startPage + 1` is not negative, and then button i shows page `startPage + i`; `Pagination.ButtonWindow` gives its meaning under the invariant |
| Pagination.GroupInvBounds | src/features/Blog/components/Pagination.tsx:42-54 | a group is non-negative with an existing first page iff it lies in `0 .. ceil(totalPages / PAGES_PER_GROUP) - 1` |
| Pagination.ButtonWindow | src/features/Blog/components/Pagination.tsx:42-43 | under the group invariant the buttons are drawn, there are 1 to `PAGES_PER_GROUP` of them, and a page has a button iff it exists and belongs to the current group |
| Pagination.Paginate | src/features/Blog/components/Pagination.tsx:46 | its contract is the definition (only the current page changes); `Pagination.StepInv` shows a drawn page button keeps the invariant |
| Pagination.ShowPrev | src/features/Blog/components/Pagination.tsx:78 | no contract: the definition `currentPageGroup > 0`; `Pagination.ControlsMatchGuards` states what it means |
| Pagination.ShowNext | src/features/Blog/components/Pagination.tsx:104 | no contract: the definition `endPage < totalPages`; `Pagination.ControlsMatchGuards` states what it means |
| Pagination.NextPageGroup | src/features/Blog/components/Pagination.tsx:48-50 | the page and listing are untouched; the group either advances by one or nothing changes |
| Pagination.PrevPageGroup | src/features/Blog/components/Pagination.tsx:52-54 | the page and listing are untouched; the group either steps back by one or nothing changes |
| Pagination.ControlsMatchGuards | src/features/Blog/components/Pagination.tsx:48-54 | ">" is drawn iff `nextPageGroup` changes the state, and "<" iff `prevPageGroup` does; when drawn they move the group by exactly one |
| Pagination.GroupMovesKeepInv | src/features/Blog/components/Pagination.tsx:48-54 | both group moves keep the group non-negative with an existing first page |
| Pagination.CurrentPokemon | src/features/Blog/components/Pagination.tsx:33-36 | no contract: the `slice` call itself; `Pagination.CurrentPokemonIsPageSlice` states what it shows |
| Pagination.CurrentPokemonIsPageSlice | src/features/Blog/components/Pagination.tsx:33-36 | the shown items are exactly the listing from position `(page-1)*PER_PAGE` up to `page*PER_PAGE`, cut at the listing's end: at most `PER_PAGE` of them, a full page iff the listing reaches `page*PER_PAGE`, and none iff the page starts past the listing's end |
| Pagination.SpriteId | src/features/Blog/components/Pagination.tsx:67-68 | no contract: the formula itself; `Pagination.SpriteIdIsListingPosition` states what it means |
| Pagination.SpriteIdIsListingPosition | src/features/Blog/components/Pagination.tsx:67-68 | the sprite id of a shown item is its 1-based position in the whole listing |
| Pagination.Step | src/features/Blog/components/Pagination.tsx:17-106 | no contract: one event (listing load, page button, "<", ">"), each click reaching its handler only when drawn; `Pagination.StepInv` is its invariant |
| Pagination.Run | src/features/Blog/components/Pagination.tsx:13-106 | no contract: `Step` folded over an event sequence; `Pagination.RunInv` is its invariant |
| Pagination.InitInv | src/features/Blog/components/Pagination.tsx:13-15 | the mounted state is an empty listing, page 1 and group 0; it satisfies the invariant and "<" is hidden |
| Pagination.StepInv | src/features/Blog/components/Pagination.tsx:17-54 | a listing load, a page button, "<" or ">" keeps the group invariant and an existing current page |
| Pagination.RunInv | src/features/Blog/components/Pagination.tsx:13-54 | every state reached from an invariant state by any event sequence satisfies the invariant |
| Pagination.ReachablePageNonEmpty | src/features/Blog/components/Pagination.tsx:33-39 | in any reachable state whose listing holds `POKEMON_LIMIT` items, the current page shows between 1 and `PER_PAGE` of them |
| Pagination.SourceWindows | src/features/Blog/components/Pagination.tsx:3-5 | with the constants 50, 1 and 10 there are 50 pages in groups 0..4, and group g shows pages `10g+1 .. 10g+10` |
| Pagination.TwoPerPageScenario | src/features/Blog/components/Pagination.tsx:33-39 | with two items per page there are 25 pages; page 1 shows items 1-2 and page 2 shows items 3-4 |
| Pagination.TwelvePagesInFives | src/features/Blog/components/Pagination.tsx:42-43 | twelve pages in groups of five give three groups: 1-5, 6-10 and the short group 11-12 |
| InfiniteScroll.DataMapper | src/features/Blog/components/InfiniteScroll.tsx:25-31 | its contract is the definition (four fields kept, `base_experience` renamed); `InfiniteScroll.QueryFnPage` gives it meaning for the rows |
| InfiniteScroll.PageLimit | src/features/Blog/components/InfiniteScroll.tsx:24 | no contract: 30 for page 0, 10 otherwise; `InfiniteScroll.PageIdsFormula` states the ids it leads to |
| InfiniteScroll.QueryFn | src/features/Blog/components/InfiniteScroll.tsx:20-32 | no contract: the fetcher call with the limit policy and mapper; `InfiniteScroll.QueryFnPage` states what it resolves to |
| InfiniteScroll.GetNextPageParam | src/features/Blog/components/InfiniteScroll.tsx:33 | no contract: the `nextPage` of the last page; `InfiniteScroll.LoadedPages` states the param sequence it yields |
| InfiniteScroll.NextPageParam | src/features/Blog/components/InfiniteScroll.tsx:33-34 | no contract: the initial param 0, then `GetNextPageParam` of the last page; `InfiniteScroll.LoadedPages` states the param sequence it yields |
| InfiniteScroll.FetchNextPage | src/features/Blog/components/InfiniteScroll.tsx:17-39 | no contract: appends the next page, stops when none is offered, fails when the fetch fails; `InfiniteScroll.LoadedPages` states the result of repeating it |
| InfiniteScroll.LoadPages | src/features/Blog/components/InfiniteScroll.tsx:17-41 | after `n` fetches the pages and their params pair up one to one and number at most `n`; `InfiniteScroll.LoadedPages` fixes them exactly |
| InfiniteScroll.LoadedPages | src/features/Blog/components/InfiniteScroll.tsx:33-34 | for a query that always offers the next page, n fetches succeed iff pages 0..n-1 resolve; the params are then exactly 0..n-1 with no gap, page k is the query's page k, and page n is offered next |
| InfiniteScroll.PageIdsFormula | src/features/Blog/components/InfiniteScroll.tsx:20-24 | page 0 requests ids 1..30 and page k >= 1 requests ids `10k+1 .. 10k+10` |
| InfiniteScroll.OverlapOfFirstPages | src/features/Blog/components/InfiniteScroll.tsx:24 | pages 1 and 2 together request exactly ids 11..30 of page 0 again, every id of pages 0-2 is at most 30, and page 3 starts at id 31 |
| InfiniteScroll.QueryFnPage | src/features/Blog/components/InfiniteScroll.tsx:20-32 | the query for page k resolves iff all of page k's ids are served; it is then page k, offers page k+1, holds `PageLimit(k)` rows, and row j is the projected payload of page k's j-th id |
| InfiniteScroll.ScrollOffersNext | src/features/Blog/components/InfiniteScroll.tsx:20-33 | every resolved page k of the component's query offers page k+1 as the next param |
| InfiniteScroll.LoadPagesSucceedsIff | src/features/Blog/components/InfiniteScroll.tsx:17-35 | n pages load iff every id from 1 to the highest id requested by them is served |
| InfiniteScroll.LoadedPageContents | src/features/Blog/components/InfiniteScroll.tsx:20-34 | after n loads, page k was fetched with param k, reports page k, offers k+1, and holds page k's payloads in order |
| InfiniteScroll.Rows | src/features/Blog/components/InfiniteScroll.tsx:73-75 | no contract: the data of every page, pages in order; `InfiniteScroll.RowsOfPages` and `InfiniteScroll.RowsOfLoaded` state what the rows are |
| InfiniteScroll.RowsOfPages | src/features/Blog/components/InfiniteScroll.tsx:73-75 | the rows of the query's pages 0..n-1 number `RowCount(n)`: none for no page, else `30 + 10(n-1)`, and row i shows the payload of id `RowId(i)` |
| InfiniteScroll.RowsOfLoaded | src/features/Blog/components/InfiniteScroll.tsx:73-75 | the table after n loads: rows 0..29 are ids 1..30, and row i >= 30 is id i-19 |
| InfiniteScroll.DuplicatedRows | src/features/Blog/components/InfiniteScroll.tsx:73-75 | after three loads the table has at least 50 rows, and rows 30..49 repeat rows 10..29 |
| InfiniteScroll.ContinuingRows | src/features/Blog/components/InfiniteScroll.tsx:73-75 | when every page continues after the last id shown, row i of the table shows id i+1 |
| InfiniteScroll.ContinuingScrollShowsEachIdOnce | src/features/Blog/components/InfiniteScroll.tsx:20-34 | a loaded continuing scroll shows ids 1, 2, 3, ... in row order, each once |
| Modal.GalleryMapper | src/features/Blog/components/Modal.tsx:67-74 | its contract is the definition (`sprites.front_default` becomes `image`); `Modal.GalleryFetchesFirstThree` gives it meaning for the thumbnails |
| Modal.GalleryQuery | src/features/Blog/components/Modal.tsx:62-76 | no contract: the fetcher with page 0 and limit 3; `Modal.GalleryFetchesFirstThree` states what it resolves to |
| Modal.GalleryFetchesFirstThree | src/features/Blog/components/Modal.tsx:62-76 | the gallery requests ids 1, 2 and 3; it resolves iff all three are served, and entry i is then the payload of id i+1 with `sprites.front_default` as `image` |
| Modal.Thumbnails | src/features/Blog/components/Modal.tsx:81-89 | no contract: the gallery data once resolved, nothing otherwise; `Modal.StepInv` keeps the selection among them |
| Modal.HandlePokemonClick | src/features/Blog/components/Modal.tsx:55-58 | its contract is the definition (select and open, whatever the state); `Modal.StepInv` shows it keeps the invariant |
| Modal.OnClose | src/features/Blog/components/Modal.tsx:92 | closing clears `open` and keeps the selected Pokémon |
| Modal.DetailPanel | src/features/Blog/components/Modal.tsx:93 | the detail panel is drawn iff a Pokémon is selected, and shows that Pokémon |
| Modal.BubblePath | src/features/Blog/components/Modal.tsx:15-31 | no contract: the listeners a click meets on its way out; `Modal.OverlayClicks` states how many reach `onClose` |
| Modal.Bubble | src/features/Blog/components/Modal.tsx:15-31 | a bubbling click leaves the state as it was or closes the dialog, nothing else; `Modal.BubbleIsClose` says which |
| Modal.ClickOverlay | src/features/Blog/components/Modal.tsx:15-31 | no contract: a click bubbled along its path; `Modal.OverlayClicks` states its effect per target |
| Modal.BubbleIsClose | src/features/Blog/components/Modal.tsx:15-31 | a bubbling click is `onClose` applied once if any listener before the first `stopPropagation` calls it, and the unchanged state otherwise |
| Modal.OverlayClicks | src/features/Blog/components/Modal.tsx:15-31 | backdrop and X each reach `onClose` exactly once and act as one close; a dialog-body click never reaches it and is a no-op; a second close changes nothing |
| Modal.Step | src/features/Blog/components/Modal.tsx:55-92 | no contract: a drawn thumbnail click calls `handlePokemonClick`, an overlay click bubbles; `Modal.StepInv` is its invariant |
| Modal.Run | src/features/Blog/components/Modal.tsx:51-92 | no contract: `Step` folded over an event sequence; `Modal.RunInv` is its invariant |
| Modal.StepInv | src/features/Blog/components/Modal.tsx:55-93 | thumbnail clicks and overlay clicks keep the invariant: an open dialog has a selection, and the selection is a drawn thumbnail |
| Modal.RunInv | src/features/Blog/components/Modal.tsx:51-93 | every reachable state keeps the invariant, so an open dialog always has a detail panel |
| Modal.InitInv | src/features/Blog/components/Modal.tsx:52-53 | the mounted state is closed with nothing selected, satisfies the invariant, and has no detail panel |

## Left out

- HTTP: axios, `fetch` and JSON decoding are left out. The network is an oracle parameter, and only the payload fields the components read are modelled.
- The Pagination listing fetch becomes an event carrying `Some(results)` or `None`. `None` covers a rejected fetch or a body that is not JSON, which is only logged.
- A listing response whose JSON has no `results` array is left out: the component then stores `undefined` and its next render throws at `pokemon.slice`. The model's loaded listing is always a sequence.
- `Promise.all` concurrency is left out, and so is which rejection wins. Only resolve-all or reject is modelled, and a rejection carries no reason.
- The request URL `${url}${id}` is kept as the pair of prefix and id. String concatenation of numbers is not modelled.
- `Math.ceil` on floating-point numbers is left out. Integer ceiling division stands in for it, and no floats are modelled.
- Non-integer page params and limits are left out: all are integers.
- Pagination.Config: the constants must all be positive (`Valid`). The component's constants are, and a zero divisor has no meaningful ceiling.
- react-query internals are left out: caching, `status`, `error`, `isLoading`, `isFetchingNextPage` and refetching. A query is its settled result. A failed scroll fetch is modelled as the whole load failing.
- react-query retries a failed `queryFn` (three times by default) before reporting an error; retries are left out. The network oracle does not change over time, so a retry would get the same answer, and `InfiniteScroll.LoadPagesSucceedsIff` holds only under that assumption.
- The intersection-observer trigger of the scroll is left out. Any number of loads is covered by `LoadPages(n, …)`.
- Modal.Thumbnails: the loading and error states of the gallery both draw no thumbnails, so both are modelled as `Failure`.
- `sprites.front_default` may be `null` in the real API; the model treats it as a string.
- All JSX, CSS classes and transitions are left out. This includes the invisible backdrop that is still laid out while the dialog is closed.
- Modal.Step: a thumbnail click changes the selection even while the dialog is open. In the page the open dialog's `fixed inset-0` backdrop covers the thumbnails, so such a click lands on the backdrop and closes the dialog instead. The model therefore allows more behaviour than the program has; `Modal.StepInv` and `Modal.RunInv` hold for this larger set of runs and so for the program's.
- src/App.tsx, src/main.tsx, src/features/Blog/pages/Blog.tsx and vite.config.ts are not part of this model.

## Findings

| source | as written | input that shows it | evidently intended | confidence | as-written member | corrected member |
|---|---|---|---|---|---|---|
| src/features/Blog/components/InfiniteScroll.tsx:24 | page k >= 1 uses limit 10 while the fetcher starts at `pageParam * limit`, so page 1 requests ids 11..20 and page 2 ids 21..30, both already shown by page 0 (ids 1..30) | pageParam 1 with limit 10, after page 0 with limit 30 | each page continues after the last id already shown, so page k >= 1 requests ids `10k+21 .. 10k+30` and no row repeats | medium, not executed | InfiniteScroll.DuplicatedRows | InfiniteScroll.ContinuingScrollShowsEachIdOnce |

=== FILE: common.dfy ===
/**
  Small building blocks shared by the components: an optional value (a
  JavaScript value that may be `null`/`undefined`), the outcome of an awaited
  batch of requests, integer ranges, and the semantics of JavaScript's
  `Array.prototype.slice`.
 */
module Common {

  /** A value that may be absent (`null` or `undefined` in the component code). */
  datatype Option<T> = None | Some(value: T) {

    /** The value, or `default` when absent (a destructuring default `x = d`). */
    function GetOr(default: T): T {
      match this
      case Some(v) => v
      case None => default
    }
  }

  /** The settled state of an awaited promise: resolved with a value, or rejected. */
  datatype Result<T> = Success(value: T) | Failure

  /** The integers lo, lo+1, ..., lo+n-1 in increasing order. */
  function Range(lo: int, n: nat): (r: seq<int>)
    ensures |r| == n
    ensures forall i :: 0 <= i < n ==> r[i] == lo + i
    decreases n
  {
    if n == 0 then [] else [lo] + Range(lo + 1, n - 1)
  }

  /** Two adjacent ranges concatenate to one range. */
  lemma RangeAppend(lo: int, m: nat, n: nat)
    ensures Range(lo, m) + Range(lo + m, n) == Range(lo, m + n)
  {
    var a, b := Range(lo, m) + Range(lo + m, n), Range(lo, m + n);
    assert |a| == |b|;
    forall i | 0 <= i < |a|
      ensures a[i] == b[i]
    {
      if i < m {
        assert a[i] == Range(lo, m)[i];
      } else {
        assert a[i] == Range(lo + m, n)[i - m];
      }
    }
  }

  /**
    The index that `Array.prototype.slice` uses for an argument `k` on an
    array of length `len`: negative arguments count back from the end, and the
    result is clamped to [0, len].
   */
  function SliceIndex(k: int, len: nat): (r: nat)
    ensures r <= len
    ensures 0 <= k ==> r == if k < len then k else len
    ensures k < 0 ==> r == if len + k < 0 then 0 else len + k
  {
    if k < 0 then (if len + k < 0 then 0 else len + k)
    else if k < len then k
    else len
  }

  /** `s.slice(start, end)` as JavaScript defines it for integer arguments. */
  function Slice<T>(s: seq<T>, start: int, end: int): (r: seq<T>)
    ensures |r| <= |s|
    ensures SliceIndex(start, |s|) < SliceIndex(end, |s|) ==>
              r == s[SliceIndex(start, |s|)..SliceIndex(end, |s|)]
    ensures SliceIndex(end, |s|) <= SliceIndex(start, |s|) ==> r == []
  {
    var from, to := SliceIndex(start, |s|), SliceIndex(end, |s|);
    if from < to then s[from..to] else []
  }
}

=== FILE: infinite_scroll.dfy ===
/**
  The infinite-scroll table. Pages are fetched one after another from the
  detail endpoint: the first with page param 0 and limit 30, every later one
  with the previous page's `nextPage` and limit 10. The table shows the rows
  of all pages in page order.

  The paging loop of the query library is modelled once, for any page query
  `q` from a page param to a settled page; `ScrollQuery(net)` is the query the
  component passes.

  Because the limit changes after page 0 while the id arithmetic of the fetcher
  uses the current limit, pages 1 and 2 ask again for ids 11..30, which page 0
  already returned; new ids first appear at page 3.
 */
module InfiniteScroll {
  import opened Common
  import opened PokemonApi

  /** A table row. */
  datatype Poke = Poke(id: int, name: string, height: int, weight: int, baseExperience: int)

  const InitialPageParam: int := 0

  /** The projection applied to every payload; `base_experience` becomes `baseExperience`. */
  function DataMapper(item: PokemonJson): (p: Poke)
    ensures p.id == item.id && p.name == item.name
    ensures p.height == item.height && p.weight == item.weight
    ensures p.baseExperience == item.base_experience
  {
    Poke(item.id, item.name, item.height, item.weight, item.base_experience)
  }

  /** The page size policy: 30 for page 0, 10 for any other page. */
  function PageLimit(pageParam: int): int {
    if pageParam == 0 then 30 else 10
  }

  /** `queryFn`: one page through the fetcher (its `pageParam` also defaults to 0). */
  function QueryFn(pageParam: Option<int>, net: Request -> Option<PokemonJson>): Result<Page<Poke>> {
    var p := PageParamOf(pageParam);
    FetchPokemonData(PokemonDetailUrl, Some(p), PageLimit(p), DataMapper, net)
  }

  /** The page query the component hands to the paging loop. */
  function ScrollQuery(net: Request -> Option<PokemonJson>): int -> Result<Page<Poke>> {
    k => QueryFn(Some(k), net)
  }

  /** `getNextPageParam`: the last page's `nextPage`. */
  function GetNextPageParam(lastPage: Page<Poke>): Option<int> {
    lastPage.nextPage
  }

  // ---- the paging loop ----------------------------------------------------

  /** The loaded pages with the page param each was fetched with. */
  datatype InfiniteData = InfiniteData(pages: seq<Page<Poke>>, pageParams: seq<int>)

  const Empty: InfiniteData := InfiniteData([], [])

  /** The param of the next fetch: the initial one, then whatever the last page offers (`None`: no more pages). */
  function NextPageParam(d: InfiniteData): Option<int> {
    if |d.pages| == 0 then Some(InitialPageParam) else GetNextPageParam(d.pages[|d.pages| - 1])
  }

  /**
    Fetching one more page: appends it on success, leaves the data as it is
    when there is no next page, and fails as a whole when the fetch fails.
   */
  function FetchNextPage(d: InfiniteData, q: int -> Result<Page<Poke>>): Result<InfiniteData> {
    match NextPageParam(d)
    case None => Success(d)
    case Some(p) =>
      match q(p)
      case Failure => Failure
      case Success(page) => Success(InfiniteData(d.pages + [page], d.pageParams + [p]))
  }

  /** The data after the initial fetch and `n - 1` further fetches, or `Failure` if any failed. */
  function LoadPages(n: nat, q: int -> Result<Page<Poke>>): (r: Result<InfiniteData>)
    ensures r.Success? ==> |r.value.pages| == |r.value.pageParams| <= n
    decreases n
  {
    if n == 0 then Success(Empty)
    else
      match LoadPages(n - 1, q)
      case Failure => Failure
      case Success(d) => FetchNextPage(d, q)
  }

  /** A page query whose every resolved page k offers page k + 1. */
  ghost predicate OffersNext(q: int -> Result<Page<Poke>>) {
    forall k :: q(k).Success? ==> q(k).value.nextPage == Some(k + 1)
  }

  /**
    For a query that always offers the next page, `n` fetches succeed exactly
    when the queries for pages 0..n-1 all resolve; the page params are then
    0, 1, ..., n-1 with no gap, page k is the query's page k, and the data
    offers page n next, so the loop never reports an end by itself.
   */
  lemma {:induction false} LoadedPages(n: nat, q: int -> Result<Page<Poke>>)
    requires OffersNext(q)
    ensures LoadPages(n, q).Success? <==> forall k :: 0 <= k < n ==> q(k).Success?
    ensures LoadPages(n, q).Success? ==>
              var d := LoadPages(n, q).value;
              |d.pages| == n && d.pageParams == Range(0, n) && NextPageParam(d) == Some(n)
    ensures LoadPages(n, q).Success? ==>
              forall k :: 0 <= k < n ==> LoadPages(n, q).value.pages[k] == q(k).value
    decreases n
  {
    if n > 0 {
      LoadedPages(n - 1, q);
      if LoadPages(n - 1, q).Success? {
        var d := LoadPages(n - 1, q).value;
        assert LoadPages(n, q) == FetchNextPage(d, q);
        if q(n - 1).Success? {
          var d' := InfiniteData(d.pages + [q(n - 1).value], d.pageParams + [n - 1]);
          assert LoadPages(n, q) == Success(d');
          RangeAppend(0, n - 1, 1);
          forall k | 0 <= k < n
            ensures d'.pages[k] == q(k).value
          {
            if k < n - 1 {
              assert d'.pages[k] == d.pages[k];
            }
          }
        }
      }
    }
  }

  /** The table body: every page's rows, pages in order. */
  function Rows(pages: seq<Page<Poke>>): seq<Poke>
    decreases |pages|
  {
    if |pages| == 0 then [] else Rows(pages[..|pages| - 1]) + pages[|pages| - 1].data
  }

  // ---- ids ----------------------------------------------------------------

  /** The ids page `k` of the scroll asks for. */
  function PageIds(k: int): seq<int> {
    RequestedIds(k, PageLimit(k))
  }

  /** Page 0 asks for ids 1..30; page k >= 1 asks for ids 10k+1 .. 10k+10. */
  lemma PageIdsFormula(k: int)
    ensures |PageIds(k)| == PageLimit(k)
    ensures forall i :: 0 <= i < |PageIds(k)| ==>
              PageIds(k)[i] == if k == 0 then i + 1 else 10 * k + i + 1
  {
  }

  /** Pages 1 and 2 re-request exactly ids 11..30 of page 0; page 3 is the first to reach past id 30. */
  lemma OverlapOfFirstPages()
    ensures PageIds(1) + PageIds(2) == PageIds(0)[10..30]
    ensures forall k, i :: 0 <= k < 3 && 0 <= i < |PageIds(k)| ==> 1 <= PageIds(k)[i] <= 30
    ensures PageIds(3)[0] == 31
  {
    PageIdsFormula(0);
    PageIdsFormula(1);
    PageIdsFormula(2);
    PageIdsFormula(3);
    var a, b := PageIds(1) + PageIds(2), PageIds(0)[10..30];
    assert |a| == |b| == 20;
    forall i | 0 <= i < 20
      ensures a[i] == b[i]
    {
      if i < 10 {
        assert a[i] == PageIds(1)[i];
      } else {
        assert a[i] == PageIds(2)[i - 10];
      }
    }
  }

  /** The highest id requested once `n` pages have loaded: 30 up to page 2, then 10 per page. */
  function MaxIdLoaded(n: nat): int {
    if n == 0 then 0 else if n <= 3 then 30 else 10 * n
  }

  /** The row count after `n` pages: 30 for the first, 10 for each later one. */
  function RowCount(n: nat): int {
    if n == 0 then 0 else 30 + 10 * (n - 1)
  }

  /** The id of the payload at table row `i` (0-based). */
  function RowId(i: int): int {
    if i < 30 then i + 1 else i - 19
  }

  // ---- the component's query ----------------------------------------------

  /** Id `id` was served and `row` is its mapped payload. */
  predicate Shows(net: Request -> Option<PokemonJson>, id: int, row: Poke) {
    net(Request(PokemonDetailUrl, id)).Some? && row == DataMapper(net(Request(PokemonDetailUrl, id)).value)
  }

  /** Every id of page `k` is served. */
  predicate PageServed(net: Request -> Option<PokemonJson>, k: int) {
    forall i :: 0 <= i < |PageIds(k)| ==> net(Request(PokemonDetailUrl, PageIds(k)[i])).Some?
  }

  /**
    The query for page `k` resolves exactly when all of page `k`'s ids are
    served; it is then page `k`, offers page `k + 1`, and holds the mapped
    payloads of page `k`'s ids in order.
   */
  lemma QueryFnPage(k: int, net: Request -> Option<PokemonJson>)
    ensures QueryFn(Some(k), net).Success? <==> PageServed(net, k)
    ensures QueryFn(Some(k), net).Success? ==>
              var page := QueryFn(Some(k), net).value;
              page.currentPage == k && page.nextPage == Some(k + 1) && |page.data| == PageLimit(k)
    ensures QueryFn(Some(k), net).Success? ==>
              var page := QueryFn(Some(k), net).value;
              forall j :: 0 <= j < |page.data| ==> Shows(net, PageIds(k)[j], page.data[j])
  {
    var r := FetchPokemonData(PokemonDetailUrl, Some(k), PageLimit(k), DataMapper, net);
    assert QueryFn(Some(k), net) == r;
    assert RequestedIds(PageParamOf(Some(k)), PageLimit(k)) == PageIds(k);
  }

  lemma ScrollOffersNext(net: Request -> Option<PokemonJson>)
    ensures OffersNext(ScrollQuery(net))
  {
    forall k | ScrollQuery(net)(k).Success?
      ensures ScrollQuery(net)(k).value.nextPage == Some(k + 1)
    {
      QueryFnPage(k, net);
    }
  }

  /** All ids 1..m are served. */
  ghost predicate ServesUpTo(net: Request -> Option<PokemonJson>, m: int) {
    forall id :: 1 <= id <= m ==> net(Request(PokemonDetailUrl, id)).Some?
  }

  /** Serving ids up to MaxIdLoaded(k+1) is serving ids up to MaxIdLoaded(k) plus page k. */
  lemma ServesStep(k: nat, net: Request -> Option<PokemonJson>)
    ensures ServesUpTo(net, MaxIdLoaded(k + 1)) <==> ServesUpTo(net, MaxIdLoaded(k)) && PageServed(net, k)
  {
    PageIdsFormula(k);
    var ids := PageIds(k);
    if ServesUpTo(net, MaxIdLoaded(k)) && PageServed(net, k) {
      forall id | 1 <= id <= MaxIdLoaded(k + 1)
        ensures net(Request(PokemonDetailUrl, id)).Some?
      {
        if MaxIdLoaded(k) < id {
          var i := if k == 0 then id - 1 else id - 10 * k - 1;
          assert ids[i] == id;
        }
      }
    }
  }

  /** Pages 0..n-1 are all served exactly when ids 1..MaxIdLoaded(n) are. */
  lemma {:induction false} PagesServedIff(n: nat, net: Request -> Option<PokemonJson>)
    ensures (forall k :: 0 <= k < n ==> PageServed(net, k)) <==> ServesUpTo(net, MaxIdLoaded(n))
    decreases n
  {
    if n > 0 {
      PagesServedIff(n - 1, net);
      ServesStep(n - 1, net);
    }
  }

  /**
    The all-or-nothing rule carried over the scroll: `n` pages load exactly when
    every id from 1 to MaxIdLoaded(n) is served, whatever happens to other ids.
   */
  lemma LoadPagesSucceedsIff(n: nat, net: Request -> Option<PokemonJson>)
    ensures LoadPages(n, ScrollQuery(net)).Success? <==> ServesUpTo(net, MaxIdLoaded(n))
  {
    ScrollOffersNext(net);
    LoadedPages(n, ScrollQuery(net));
    PagesServedIff(n, net);
    forall k | 0 <= k < n
      ensures ScrollQuery(net)(k).Success? <==> PageServed(net, k)
    {
      QueryFnPage(k, net);
    }
  }

  /**
    While the scroll keeps loading, page k was fetched with page param k, is
    reported as page k, offers page k + 1, and holds the mapped payloads of
    page k's ids in order.
   */
  lemma LoadedPageContents(n: nat, net: Request -> Option<PokemonJson>, k: int)
    requires LoadPages(n, ScrollQuery(net)).Success? && 0 <= k < n
    ensures |LoadPages(n, ScrollQuery(net)).value.pages| == n
    ensures LoadPages(n, ScrollQuery(net)).value.pageParams == Range(0, n)
    ensures var page := LoadPages(n, ScrollQuery(net)).value.pages[k];
            page.currentPage == k && page.nextPage == Some(k + 1) && |page.data| == PageLimit(k)
    ensures var page := LoadPages(n, ScrollQuery(net)).value.pages[k];
            forall j :: 0 <= j < |page.data| ==> Shows(net, PageIds(k)[j], page.data[j])
  {
    ScrollOffersNext(net);
    LoadedPages(n, ScrollQuery(net));
    QueryFnPage(k, net);
  }

  /**
    Rows of the pages 0..|ps|-1 of the component's query: RowCount(|ps|) rows,
    and row i shows the payload of id RowId(i).
   */
  lemma {:induction false} RowsOfPages(ps: seq<Page<Poke>>, net: Request -> Option<PokemonJson>)
    requires forall k :: 0 <= k < |ps| ==> QueryFn(Some(k), net).Success? && ps[k] == QueryFn(Some(k), net).value
    ensures |Rows(ps)| == RowCount(|ps|)
    ensures forall i :: 0 <= i < |Rows(ps)| ==> Shows(net, RowId(i), Rows(ps)[i])
    decreases |ps|
  {
    if |ps| > 0 {
      var n := |ps| - 1;
      var init, page := ps[..n], ps[n];
      RowsOfPages(init, net);
      QueryFnPage(n, net);
      PageIdsFormula(n);
      var rows := Rows(ps);
      assert rows == Rows(init) + page.data;
      forall i | 0 <= i < |rows|
        ensures Shows(net, RowId(i), rows[i])
      {
        if i >= RowCount(n) {
          var j := i - RowCount(n);
          assert rows[i] == page.data[j];
          assert PageIds(n)[j] == RowId(i);
        } else {
          assert rows[i] == Rows(init)[i];
        }
      }
    }
  }

  /**
    After `n` successful fetches the table has RowCount(n) rows and row i shows
    the payload of id RowId(i): rows 0..29 ids 1..30, and from row 30 on the
    id is the row number minus 19.
   */
  lemma RowsOfLoaded(n: nat, net: Request -> Option<PokemonJson>)
    requires LoadPages(n, ScrollQuery(net)).Success?
    ensures |Rows(LoadPages(n, ScrollQuery(net)).value.pages)| == RowCount(n)
    ensures var rows := Rows(LoadPages(n, ScrollQuery(net)).value.pages);
            forall i :: 0 <= i < |rows| ==> Shows(net, RowId(i), rows[i])
  {
    ScrollOffersNext(net);
    LoadedPages(n, ScrollQuery(net));
    var ps := LoadPages(n, ScrollQuery(net)).value.pages;
    forall k | 0 <= k < |ps|
      ensures QueryFn(Some(k), net).Success? && ps[k] == QueryFn(Some(k), net).value
    {
      assert ScrollQuery(net)(k) == QueryFn(Some(k), net);
    }
    RowsOfPages(ps, net);
  }

  /**
    The visible consequence of the overlap: once 3 pages have loaded the table
    has at least 50 rows, and rows 30..49 repeat rows 10..29 (ids 11..30 twice).
   */
  lemma DuplicatedRows(n: nat, net: Request -> Option<PokemonJson>)
    requires LoadPages(n, ScrollQuery(net)).Success?
    ensures 3 <= n ==> 50 <= |Rows(LoadPages(n, ScrollQuery(net)).value.pages)|
    ensures var rows := Rows(LoadPages(n, ScrollQuery(net)).value.pages);
            forall i :: 30 <= i < 50 && i < |rows| ==> rows[i] == rows[i - 20]
  {
    RowsOfLoaded(n, net);
    var rows := Rows(LoadPages(n, ScrollQuery(net)).value.pages);
    forall i | 30 <= i < 50 && i < |rows|
      ensures rows[i] == rows[i - 20]
    {
      assert RowId(i) == RowId(i - 20);
    }
  }

  // ---- pages that continue where the previous one ended -------------------

  /**
    The ids a scroll asks for when each page continues after the last id
    already shown: 1..30 first, then ten more at a time.
   */
  function ContinuingPageIds(k: int): (ids: seq<int>)
    ensures |ids| == PageLimit(k)
    ensures forall i :: 0 <= i < |ids| ==> ids[i] == if k == 0 then i + 1 else 10 * k + 21 + i
  {
    Range(if k == 0 then 1 else 10 * k + 21, PageLimit(k))
  }

  /** The page query with continuing ids; everything else is the fetcher's own `FetchIds`, as in `queryFn`. */
  function ContinuingQueryFn(k: int, net: Request -> Option<PokemonJson>): Result<Page<Poke>> {
    FetchIds(PokemonDetailUrl, ContinuingPageIds(k), DataMapper, k, PageLimit(k), net)
  }

  function ContinuingQuery(net: Request -> Option<PokemonJson>): int -> Result<Page<Poke>> {
    k => ContinuingQueryFn(k, net)
  }

  /** `page` holds the payloads of continuing page k's ids, in order. */
  predicate HoldsContinuingPage(net: Request -> Option<PokemonJson>, k: int, page: Page<Poke>) {
    && |page.data| == PageLimit(k)
    && forall j :: 0 <= j < |page.data| ==> Shows(net, ContinuingPageIds(k)[j], page.data[j])
  }

  /** A resolved continuing page k offers page k + 1 and holds its ids' payloads in order. */
  lemma ContinuingPage(k: int, net: Request -> Option<PokemonJson>)
    ensures ContinuingQueryFn(k, net).Success? ==>
              ContinuingQueryFn(k, net).value.nextPage == Some(k + 1) &&
              HoldsContinuingPage(net, k, ContinuingQueryFn(k, net).value)
  {
  }

  /**
    With continuing ids the table never repeats a Pokémon: rows of continuing
    pages 0..|ps|-1 number RowCount(|ps|), and row i shows the payload of id i + 1.
   */
  lemma {:induction false} ContinuingRows(ps: seq<Page<Poke>>, net: Request -> Option<PokemonJson>)
    requires forall k :: 0 <= k < |ps| ==> HoldsContinuingPage(net, k, ps[k])
    ensures |Rows(ps)| == RowCount(|ps|)
    ensures forall i :: 0 <= i < |Rows(ps)| ==> Shows(net, i + 1, Rows(ps)[i])
    decreases |ps|
  {
    if |ps| > 0 {
      var n := |ps| - 1;
      var init, page := ps[..n], ps[n];
      assert forall k :: 0 <= k < |init| ==> init[k] == ps[k];
      ContinuingRows(init, net);
      assert ps == init + [page];
      RowsAppend(init, page);
      ContinuingRowsStep(Rows(init), n, page, net);
    }
  }

  lemma RowsAppend(pages: seq<Page<Poke>>, page: Page<Poke>)
    ensures Rows(pages + [page]) == Rows(pages) + page.data
  {
    assert (pages + [page])[..|pages|] == pages;
  }

  /** Appending continuing page n to the rows of pages 0..n-1 keeps row i on id i + 1. */
  lemma ContinuingRowsStep(rows: seq<Poke>, n: nat, page: Page<Poke>, net: Request -> Option<PokemonJson>)
    requires |rows| == RowCount(n)
    requires forall i :: 0 <= i < |rows| ==> Shows(net, i + 1, rows[i])
    requires HoldsContinuingPage(net, n, page)
    ensures |rows + page.data| == RowCount(n + 1)
    ensures forall i :: 0 <= i < |rows + page.data| ==> Shows(net, i + 1, (rows + page.data)[i])
  {
    var all := rows + page.data;
    forall i | 0 <= i < |all|
      ensures Shows(net, i + 1, all[i])
    {
      if i >= |rows| {
        var j := i - |rows|;
        assert all[i] == page.data[j];
        assert ContinuingPageIds(n)[j] == i + 1;
      } else {
        assert all[i] == rows[i];
      }
    }
  }

  /** The loaded continuing scroll shows ids 1, 2, 3, ... in row order, each once. */
  lemma ContinuingScrollShowsEachIdOnce(n: nat, net: Request -> Option<PokemonJson>)
    requires LoadPages(n, ContinuingQuery(net)).Success?
    ensures |Rows(LoadPages(n, ContinuingQuery(net)).value.pages)| == RowCount(n)
    ensures var rows := Rows(LoadPages(n, ContinuingQuery(net)).value.pages);
            forall i :: 0 <= i < |rows| ==> Shows(net, i + 1, rows[i])
  {
    forall k | ContinuingQuery(net)(k).Success?
      ensures ContinuingQuery(net)(k).value.nextPage == Some(k + 1)
    {
      ContinuingPage(k, net);
    }
    LoadedPages(n, ContinuingQuery(net));
    var ps := LoadPages(n, ContinuingQuery(net)).value.pages;
    forall k | 0 <= k < |ps|
      ensures HoldsContinuingPage(net, k, ps[k])
    {
      assert ContinuingQuery(net)(k) == ContinuingQueryFn(k, net);
      ContinuingPage(k, net);
    }
    ContinuingRows(ps, net);
  }
}

=== FILE: modal.dfy ===
/**
  The modal gallery. It fetches a fixed page of three Pokémon (page 0,
  limit 3) and shows their images as thumbnails. Clicking a thumbnail selects
  that Pokémon and opens the dialog. Clicking the backdrop or the X button
  closes the dialog but keeps the selection. A click anywhere else inside the
  dialog changes nothing, because the dialog stops the click before it reaches
  the backdrop.
 */
module Modal {
  import opened Common
  import opened PokemonApi

  /** A gallery entry. */
  datatype Poke = Poke(id: int, name: string, height: int, weight: int, baseExperience: int, image: string)

  /** The gallery's fixed fetch: page 0, three items. */
  const GalleryPageParam: int := 0
  const GalleryLimit: int := 3

  /** The gallery's projection: the scroll's fields plus `sprites.front_default` as `image`. */
  function GalleryMapper(item: PokemonJson): (p: Poke)
    ensures p.id == item.id && p.name == item.name
    ensures p.height == item.height && p.weight == item.weight
    ensures p.baseExperience == item.base_experience
    ensures p.image == item.sprites.front_default
  {
    Poke(item.id, item.name, item.height, item.weight, item.base_experience, item.sprites.front_default)
  }

  /** The gallery query. */
  function GalleryQuery(net: Request -> Option<PokemonJson>): Result<Page<Poke>> {
    FetchPokemonData(PokemonDetailUrl, Some(GalleryPageParam), GalleryLimit, GalleryMapper, net)
  }

  /**
    The gallery asks for ids 1, 2 and 3. It resolves exactly when all three are
    served, and then holds their mapped payloads in id order.
   */
  lemma GalleryFetchesFirstThree(net: Request -> Option<PokemonJson>)
    ensures RequestedIds(GalleryPageParam, GalleryLimit) == [1, 2, 3]
    ensures GalleryQuery(net).Success? <==>
              forall id :: 1 <= id <= 3 ==> net(Request(PokemonDetailUrl, id)).Some?
    ensures GalleryQuery(net).Success? ==>
              |GalleryQuery(net).value.data| == 3 &&
              forall i :: 0 <= i < 3 ==>
                GalleryQuery(net).value.data[i] == GalleryMapper(net(Request(PokemonDetailUrl, i + 1)).value)
  {
    var ids := RequestedIds(GalleryPageParam, GalleryLimit);
    assert ids == [1, 2, 3];
    if forall id :: 1 <= id <= 3 ==> net(Request(PokemonDetailUrl, id)).Some? {
      assert forall i :: 0 <= i < |ids| ==> net(Request(PokemonDetailUrl, ids[i])).Some?;
    }
    if GalleryQuery(net).Success? {
      forall id | 1 <= id <= 3
        ensures net(Request(PokemonDetailUrl, id)).Some?
      {
        assert ids[id - 1] == id;
      }
    }
  }

  /** The thumbnails drawn: the gallery's data once resolved, nothing while loading or after an error. */
  function Thumbnails(gallery: Result<Page<Poke>>): seq<Poke> {
    match gallery
    case Success(page) => page.data
    case Failure => []
  }

  // ---- dialog state -------------------------------------------------------

  datatype ModalState = ModalState(open: bool, selectedPokemon: Option<Poke>)

  /** Closed, nothing selected. */
  const Init: ModalState := ModalState(false, None)

  /** `handlePokemonClick`: select the Pokémon and open, whatever the state was. */
  function HandlePokemonClick(s: ModalState, pokemon: Poke): (r: ModalState)
    ensures r.open && r.selectedPokemon == Some(pokemon)
  {
    ModalState(true, Some(pokemon))
  }

  /** `onClose`: closes the dialog and keeps the selection. */
  function OnClose(s: ModalState): (r: ModalState)
    ensures !r.open
    ensures r.selectedPokemon == s.selectedPokemon
  {
    s.(open := false)
  }

  /** The detail panel is rendered exactly when a Pokémon is selected, and shows that Pokémon. */
  function DetailPanel(s: ModalState): (shown: Option<Poke>)
    ensures shown.Some? <==> s.selectedPokemon.Some?
    ensures shown.Some? ==> shown.value == s.selectedPokemon.value
  {
    s.selectedPokemon
  }

  // ---- clicks inside the overlay ------------------------------------------

  /** Where a click inside the overlay lands. */
  datatype Target = Backdrop | CloseButton | DialogBody

  /** The click handlers on the way from an element out to the backdrop. */
  datatype Listener = CallOnClose | StopPropagation

  /**
    The listeners a click meets as it bubbles: the X button calls `onClose`,
    the dialog stops propagation, and the backdrop calls `onClose`.
   */
  function BubblePath(t: Target): seq<Listener> {
    match t
    case CloseButton => [CallOnClose, StopPropagation, CallOnClose]
    case DialogBody => [StopPropagation, CallOnClose]
    case Backdrop => [CallOnClose]
  }

  /** Runs the listeners in order until one stops propagation. */
  function Bubble(s: ModalState, path: seq<Listener>): (r: ModalState)
    ensures r == s || r == OnClose(s)
    decreases |path|
  {
    if |path| == 0 then s
    else
      match path[0]
      case StopPropagation => s
      case CallOnClose => Bubble(OnClose(s), path[1..])
  }

  /** How many times `onClose` runs for a click on the path before propagation stops. */
  function OnCloseCalls(path: seq<Listener>): nat
    decreases |path|
  {
    if |path| == 0 then 0
    else
      match path[0]
      case StopPropagation => 0
      case CallOnClose => 1 + OnCloseCalls(path[1..])
  }

  lemma OnCloseIdempotent(s: ModalState)
    ensures OnClose(OnClose(s)) == OnClose(s)
  {
  }

  /** Bubbling is `onClose` applied once when it is called at all, and nothing otherwise. */
  lemma {:induction false} BubbleIsClose(s: ModalState, path: seq<Listener>)
    ensures Bubble(s, path) == if OnCloseCalls(path) == 0 then s else OnClose(s)
    decreases |path|
  {
    if |path| > 0 && path[0] == CallOnClose {
      BubbleIsClose(OnClose(s), path[1..]);
      OnCloseIdempotent(s);
    }
  }

  /** A click in the overlay. */
  function ClickOverlay(s: ModalState, t: Target): ModalState {
    Bubble(s, BubblePath(t))
  }

  /**
    The backdrop and the X button each reach `onClose` exactly once, so either
    closes the dialog and keeps the selection. A click in the dialog body never
    reaches the backdrop and leaves the state as it was.
   */
  lemma OverlayClicks(s: ModalState)
    ensures OnCloseCalls(BubblePath(Backdrop)) == 1 && OnCloseCalls(BubblePath(CloseButton)) == 1
    ensures OnCloseCalls(BubblePath(DialogBody)) == 0
    ensures ClickOverlay(s, Backdrop) == OnClose(s) && ClickOverlay(s, CloseButton) == OnClose(s)
    ensures ClickOverlay(s, DialogBody) == s
    ensures ClickOverlay(ClickOverlay(s, Backdrop), CloseButton) == ClickOverlay(s, Backdrop)
  {
    BubbleIsClose(s, BubblePath(Backdrop));
    BubbleIsClose(s, BubblePath(CloseButton));
    BubbleIsClose(s, BubblePath(DialogBody));
    BubbleIsClose(OnClose(s), BubblePath(CloseButton));
  }

  // ---- the component as a state machine -----------------------------------

  datatype Event = ThumbnailClick(index: int) | OverlayClick(target: Target)

  /** One event; a click on a thumbnail that is not drawn does nothing. */
  function Step(gallery: Result<Page<Poke>>, s: ModalState, e: Event): ModalState {
    match e
    case ThumbnailClick(i) =>
      if 0 <= i < |Thumbnails(gallery)| then HandlePokemonClick(s, Thumbnails(gallery)[i]) else s
    case OverlayClick(t) => ClickOverlay(s, t)
  }

  function Run(gallery: Result<Page<Poke>>, s: ModalState, es: seq<Event>): ModalState
    decreases |es|
  {
    if |es| == 0 then s else Run(gallery, Step(gallery, s, es[0]), es[1..])
  }

  /** The invariant of reachable states: an open dialog has a selection, and a selection is a drawn thumbnail. */
  predicate Inv(gallery: Result<Page<Poke>>, s: ModalState) {
    && (s.open ==> s.selectedPokemon.Some?)
    && (s.selectedPokemon.Some? ==> s.selectedPokemon.value in Thumbnails(gallery))
  }

  lemma StepInv(gallery: Result<Page<Poke>>, s: ModalState, e: Event)
    requires Inv(gallery, s)
    ensures Inv(gallery, Step(gallery, s, e))
  {
    if e.OverlayClick? {
      OverlayClicks(s);
    }
  }

  /** From the initial state, every reachable state keeps the invariant, so the open dialog always has a detail panel. */
  lemma {:induction false} RunInv(gallery: Result<Page<Poke>>, s: ModalState, es: seq<Event>)
    requires Inv(gallery, s)
    ensures Inv(gallery, Run(gallery, s, es))
    ensures Run(gallery, s, es).open ==> DetailPanel(Run(gallery, s, es)).Some?
    decreases |es|
  {
    if |es| > 0 {
      StepInv(gallery, s, es[0]);
      RunInv(gallery, Step(gallery, s, es[0]), es[1..]);
    }
  }

  lemma InitInv(gallery: Result<Page<Poke>>)
    ensures Inv(gallery, Init)
    ensures !Init.open && DetailPanel(Init).None?
  {
  }
}

=== FILE: pagination.dfy ===
/**
  The grouped-page pagination view. It holds the fetched listing, the current
  page (1-based) and the current page group (0-based, tracked on its own, not
  derived from the page). From these it derives the items shown, the total
  page count, and the window of page buttons; the group moves only through the
  guarded "<" and ">" controls.

  The three constants of the component are a `Config`; `Source` holds the
  values the component uses.
 */
module Pagination {
  import opened Common

  /** The component's constants: listing size, items per page and buttons per group. */
  datatype Config = Config(pokemonLimit: int, pokemonPerPage: int, pagesPerGroup: int) {
    predicate Valid() {
      0 < pokemonLimit && 0 < pokemonPerPage && 0 < pagesPerGroup
    }
  }

  /** POKEMON_LIMIT = 50, POKEMON_PER_PAGE = 1, PAGES_PER_GROUP = 10. */
  const Source: Config := Config(50, 1, 10)

  /** An entry of the `?limit=N` listing. */
  datatype NamedResource = NamedResource(name: string, url: string)

  datatype State = State(pokemon: seq<NamedResource>, currentPage: int, currentPageGroup: int)

  /** The state on mount: empty listing, page 1, group 0. */
  const Init: State := State([], 1, 0)

  /** `Math.ceil(a / b)` on integers, characterised as the least q with a <= q * b. */
  function CeilDiv(a: int, b: int): (q: int)
    requires 0 < b
    ensures a <= q * b
    ensures (q - 1) * b < a
  {
    var q := (a + b - 1) / b;
    assert a + b - 1 == q * b + (a + b - 1) % b;
    assert (q - 1) * b == q * b - b;
    q
  }

  lemma MulMonotone(x: int, y: int, k: int)
    requires x <= y && 0 <= k
    ensures x * k <= y * k
  {
  }

  /** The page count, taken from the constant listing size and not from what was fetched. */
  function TotalPages(c: Config): (n: int)
    requires c.Valid()
    ensures 1 <= n
    ensures (n - 1) * c.pokemonPerPage < c.pokemonLimit <= n * c.pokemonPerPage
  {
    var n := CeilDiv(c.pokemonLimit, c.pokemonPerPage);
    assert 1 <= n by {
      if n < 1 {
        MulMonotone(n, 0, c.pokemonPerPage);
      }
    }
    n
  }

  function StartPage(c: Config, group: int): int {
    group * c.pagesPerGroup + 1
  }

  /** `Math.min(startPage + PAGES_PER_GROUP - 1, totalPages)`: the group's last slot, cut at the last page. */
  function EndPage(c: Config, group: int): (r: int)
    requires c.Valid()
    ensures r <= TotalPages(c) && r <= StartPage(c, group) + c.pagesPerGroup - 1
    ensures r == TotalPages(c) || r == StartPage(c, group) + c.pagesPerGroup - 1
  {
    var last := StartPage(c, group) + c.pagesPerGroup - 1;
    if last < TotalPages(c) then last else TotalPages(c)
  }

  /**
    The page numbers on the buttons, `[...Array(endPage - startPage + 1)]`
    mapped to `startPage + idx`. A negative length makes `Array` throw, which
    is `None` here.
   */
  function PageButtons(c: Config, group: int): (r: Option<seq<int>>)
    requires c.Valid()
    ensures r.Some? <==> StartPage(c, group) <= EndPage(c, group) + 1
    ensures r.Some? ==> |r.value| == EndPage(c, group) - StartPage(c, group) + 1
    ensures r.Some? ==> forall i :: 0 <= i < |r.value| ==> r.value[i] == StartPage(c, group) + i
  {
    var n := EndPage(c, group) - StartPage(c, group) + 1;
    if n < 0 then None else Some(Range(StartPage(c, group), n))
  }

  /** The page group a page number belongs to. */
  function GroupOf(c: Config, page: int): int
    requires c.Valid()
  {
    (page - 1) / c.pagesPerGroup
  }

  /** The index of the last page group. */
  function LastGroup(c: Config): int
    requires c.Valid()
  {
    CeilDiv(TotalPages(c), c.pagesPerGroup) - 1
  }

  /** The group invariant: a non-negative group whose first page exists. */
  predicate GroupInv(c: Config, group: int)
    requires c.Valid()
  {
    0 <= group && StartPage(c, group) <= TotalPages(c)
  }

  /** The group invariant says exactly that the group lies in 0 .. ceil(totalPages / PAGES_PER_GROUP) - 1. */
  lemma GroupInvBounds(c: Config, group: int)
    requires c.Valid()
    ensures GroupInv(c, group) <==> 0 <= group <= LastGroup(c)
  {
    var q := LastGroup(c) + 1;
    if 0 <= group <= LastGroup(c) {
      MulMonotone(group, q - 1, c.pagesPerGroup);
    }
    if q <= group {
      MulMonotone(q, group, c.pagesPerGroup);
    }
  }

  /**
    While the group invariant holds the button row is drawn, has between 1 and
    PAGES_PER_GROUP buttons, and shows exactly the existing pages of that group.
   */
  lemma ButtonWindow(c: Config, group: int)
    requires c.Valid() && GroupInv(c, group)
    ensures PageButtons(c, group).Some?
    ensures 1 <= |PageButtons(c, group).value| <= c.pagesPerGroup
    ensures forall p :: p in PageButtons(c, group).value <==>
              1 <= p <= TotalPages(c) && GroupOf(c, p) == group
  {
    var bs := PageButtons(c, group).value;
    var g, G := group, c.pagesPerGroup;
    forall p
      ensures p in bs <==> 1 <= p <= TotalPages(c) && GroupOf(c, p) == g
    {
      if p in bs {
        var i :| 0 <= i < |bs| && bs[i] == p;
        assert p - 1 == g * G + i;
        DivOfGroupOffset(g, G, i);
      }
      if 1 <= p <= TotalPages(c) && GroupOf(c, p) == g {
        var i := (p - 1) % G;
        assert p - 1 == g * G + i;
        assert bs[i] == p;
      }
    }
  }

  lemma DivOfGroupOffset(g: int, G: int, i: int)
    requires 0 < G && 0 <= i < G
    ensures (g * G + i) / G == g
  {
    var n := g * G + i;
    var q, r := n / G, n % G;
    assert n == q * G + r;
    assert (g + 1) * G == g * G + G;
    assert (q + 1) * G == q * G + G;
    MulLessCancel(q, g + 1, G);
    MulLessCancel(g, q + 1, G);
  }

  lemma MulLessCancel(x: int, y: int, k: int)
    requires 0 < k && x * k < y * k
    ensures x < y
  {
    if y <= x {
      MulMonotone(y, x, k);
    }
  }

  // ---- handlers -----------------------------------------------------------

  /** `paginate(n)`: only the current page changes. */
  function Paginate(s: State, pageNumber: int): (r: State)
    ensures r.currentPage == pageNumber
    ensures r.currentPageGroup == s.currentPageGroup && r.pokemon == s.pokemon
  {
    s.(currentPage := pageNumber)
  }

  /** Whether the ">" control is drawn. */
  predicate ShowNext(c: Config, s: State)
    requires c.Valid()
  {
    EndPage(c, s.currentPageGroup) < TotalPages(c)
  }

  /** Whether the "<" control is drawn. */
  predicate ShowPrev(s: State) {
    0 < s.currentPageGroup
  }

  /** `nextPageGroup`: advances the group only when a later page exists; the page is untouched. */
  function NextPageGroup(c: Config, s: State): (r: State)
    requires c.Valid()
    ensures r.currentPage == s.currentPage && r.pokemon == s.pokemon
    ensures r.currentPageGroup == s.currentPageGroup + 1 || r == s
  {
    if EndPage(c, s.currentPageGroup) < TotalPages(c)
    then s.(currentPageGroup := s.currentPageGroup + 1)
    else s
  }

  /** `prevPageGroup`: steps the group back only from a positive group; the page is untouched. */
  function PrevPageGroup(s: State): (r: State)
    ensures r.currentPage == s.currentPage && r.pokemon == s.pokemon
    ensures r.currentPageGroup == s.currentPageGroup - 1 || r == s
  {
    if 0 < s.currentPageGroup then s.(currentPageGroup := s.currentPageGroup - 1) else s
  }

  /** Each group control is drawn exactly when its handler would change the state. */
  lemma ControlsMatchGuards(c: Config, s: State)
    requires c.Valid()
    ensures ShowNext(c, s) <==> NextPageGroup(c, s) != s
    ensures ShowPrev(s) <==> PrevPageGroup(s) != s
    ensures ShowNext(c, s) ==> NextPageGroup(c, s).currentPageGroup == s.currentPageGroup + 1
    ensures ShowPrev(s) ==> PrevPageGroup(s).currentPageGroup == s.currentPageGroup - 1
  {
  }

  /** Both group moves keep the group invariant. */
  lemma GroupMovesKeepInv(c: Config, s: State)
    requires c.Valid() && GroupInv(c, s.currentPageGroup)
    ensures GroupInv(c, NextPageGroup(c, s).currentPageGroup)
    ensures GroupInv(c, PrevPageGroup(s).currentPageGroup)
  {
  }

  // ---- derived view -------------------------------------------------------

  /** `currentPokemon`: the listing sliced to the current page. */
  function CurrentPokemon(c: Config, s: State): seq<NamedResource>
    requires c.Valid()
  {
    Slice(s.pokemon, (s.currentPage - 1) * c.pokemonPerPage, s.currentPage * c.pokemonPerPage)
  }

  /**
    For a page from 1 on, the items shown are the listing from position
    (page-1)*PER_PAGE onwards, at most PER_PAGE of them, a full page exactly
    when the listing reaches page*PER_PAGE, and none exactly when the page
    starts past the end of the listing.
   */
  lemma CurrentPokemonIsPageSlice(c: Config, s: State)
    requires c.Valid() && 1 <= s.currentPage
    ensures var v, pp := CurrentPokemon(c, s), c.pokemonPerPage;
            |v| <= pp &&
            (|v| == pp <==> s.currentPage * pp <= |s.pokemon|) &&
            (v == [] <==> |s.pokemon| <= (s.currentPage - 1) * pp)
    ensures var v, pp := CurrentPokemon(c, s), c.pokemonPerPage;
            forall k :: 0 <= k < |v| ==> v[k] == s.pokemon[(s.currentPage - 1) * pp + k]
    ensures var v, pp := CurrentPokemon(c, s), c.pokemonPerPage;
            var from, to := (s.currentPage - 1) * pp, s.currentPage * pp;
            from <= |s.pokemon| ==> v == s.pokemon[from..if to <= |s.pokemon| then to else |s.pokemon|]
  {
    var pp := c.pokemonPerPage;
    assert s.currentPage * pp == (s.currentPage - 1) * pp + pp;
    MulMonotone(0, s.currentPage - 1, pp);
  }

  /** The sprite id drawn for the `index`-th shown item. */
  function SpriteId(c: Config, s: State, index: int): int {
    (s.currentPage - 1) * c.pokemonPerPage + index + 1
  }

  /** The sprite id of a shown item is that item's 1-based position in the whole listing. */
  lemma SpriteIdIsListingPosition(c: Config, s: State, index: int)
    requires c.Valid() && 1 <= s.currentPage
    requires 0 <= index < |CurrentPokemon(c, s)|
    ensures 1 <= SpriteId(c, s, index) <= |s.pokemon|
    ensures CurrentPokemon(c, s)[index] == s.pokemon[SpriteId(c, s, index) - 1]
  {
    CurrentPokemonIsPageSlice(c, s);
  }

  // ---- the component as a state machine -----------------------------------

  /** What can happen to the component: the listing settles, or a drawn control is clicked. */
  datatype Event =
    | ListingLoaded(results: Option<seq<NamedResource>>)
    | PageButton(pageNumber: int)
    | PrevGroupButton
    | NextGroupButton

  /** Whether a button for `pageNumber` is drawn in the current group. */
  predicate ButtonShown(c: Config, s: State, pageNumber: int)
    requires c.Valid()
  {
    match PageButtons(c, s.currentPageGroup)
    case Some(bs) => pageNumber in bs
    case None => false
  }

  /**
    One event. A failed listing fetch is only logged; a click reaches a handler
    only when its control is drawn.
   */
  function Step(c: Config, s: State, e: Event): State
    requires c.Valid()
  {
    match e
    case ListingLoaded(Some(rs)) => s.(pokemon := rs)
    case ListingLoaded(None) => s
    case PageButton(n) => if ButtonShown(c, s, n) then Paginate(s, n) else s
    case PrevGroupButton => if ShowPrev(s) then PrevPageGroup(s) else s
    case NextGroupButton => if ShowNext(c, s) then NextPageGroup(c, s) else s
  }

  function Run(c: Config, s: State, es: seq<Event>): State
    requires c.Valid()
    decreases |es|
  {
    if |es| == 0 then s else Run(c, Step(c, s, es[0]), es[1..])
  }

  /** The invariant of reachable states: the group invariant and an existing current page. */
  predicate Inv(c: Config, s: State)
    requires c.Valid()
  {
    GroupInv(c, s.currentPageGroup) && 1 <= s.currentPage <= TotalPages(c)
  }

  lemma InitInv(c: Config)
    requires c.Valid()
    ensures Init.pokemon == [] && Init.currentPage == 1 && Init.currentPageGroup == 0
    ensures Inv(c, Init)
    ensures ShowPrev(Init) == false
  {
  }

  lemma StepInv(c: Config, s: State, e: Event)
    requires c.Valid() && Inv(c, s)
    ensures Inv(c, Step(c, s, e))
  {
    if e.PageButton? && ButtonShown(c, s, e.pageNumber) {
      ButtonWindow(c, s.currentPageGroup);
    }
  }

  /** Every state reached from one satisfying the invariant satisfies it. */
  lemma {:induction false} RunInv(c: Config, s: State, es: seq<Event>)
    requires c.Valid() && Inv(c, s)
    ensures Inv(c, Run(c, s, es))
    decreases |es|
  {
    if |es| > 0 {
      StepInv(c, s, es[0]);
      RunInv(c, Step(c, s, es[0]), es[1..]);
    }
  }

  /**
    In every reachable state, once the listing holds at least POKEMON_LIMIT
    entries, the current page shows between 1 and PER_PAGE of them.
   */
  lemma ReachablePageNonEmpty(c: Config, es: seq<Event>)
    requires c.Valid()
    requires c.pokemonLimit <= |Run(c, Init, es).pokemon|
    ensures 1 <= |CurrentPokemon(c, Run(c, Init, es))| <= c.pokemonPerPage
  {
    var s := Run(c, Init, es);
    RunInv(c, Init, es);
    CurrentPokemonIsPageSlice(c, s);
    MulMonotone(s.currentPage - 1, TotalPages(c) - 1, c.pokemonPerPage);
  }

  /** With the component's constants: 50 pages, shown in groups 1-10, 11-20, ..., 41-50. */
  lemma SourceWindows(group: int)
    requires 0 <= group <= LastGroup(Source)
    ensures TotalPages(Source) == 50
    ensures LastGroup(Source) == 4
    ensures PageButtons(Source, group) == Some(Range(10 * group + 1, 10))
  {
    assert TotalPages(Source) == 50;
    assert LastGroup(Source) == 4;
    assert StartPage(Source, group) == 10 * group + 1;
    assert EndPage(Source, group) == 10 * group + 10;
  }

  /** Two items per page out of 50: 25 pages; page 1 shows items 1-2 and page 2 items 3-4. */
  lemma TwoPerPageScenario(items: seq<NamedResource>)
    requires 4 <= |items|
    ensures TotalPages(Config(50, 2, 10)) == 25
    ensures CurrentPokemon(Config(50, 2, 10), State(items, 1, 0)) == items[0..2]
    ensures CurrentPokemon(Config(50, 2, 10), Paginate(State(items, 1, 0), 2)) == items[2..4]
  {
  }

  /** Twelve pages in groups of five: pages 1-5, 6-10, then the partial group 11-12. */
  lemma TwelvePagesInFives()
    ensures LastGroup(Config(12, 1, 5)) == 2
    ensures PageButtons(Config(12, 1, 5), 0) == Some([1, 2, 3, 4, 5])
    ensures PageButtons(Config(12, 1, 5), 1) == Some([6, 7, 8, 9, 10])
    ensures PageButtons(Config(12, 1, 5), 2) == Some([11, 12])
  {
    var c := Config(12, 1, 5);
    assert TotalPages(c) == 12;
    assert EndPage(c, 2) == 12;
    var a, b, d := Range(1, 5), Range(6, 5), Range(11, 2);
    assert a == [1, 2, 3, 4, 5];
    assert b == [6, 7, 8, 9, 10];
    assert d == [11, 12];
  }
}

=== FILE: pokemon_api.dfy ===
/**
  The paged fetcher `fetchPokemonData`: page `pageParam` of size `limit` is
  fetched as one GET per id, ids `pageParam*limit + 1 .. pageParam*limit + limit`,
  all awaited together; each payload may be passed through a mapper.

  The network is an oracle from a request to an optional payload (`None` is a
  rejected request), so the concurrent `Promise.all` becomes a sequential,
  all-or-nothing evaluation over the requests in order.
 */
module PokemonApi {
  import opened Common

  /** The detail endpoint both the infinite scroll and the modal gallery fetch from. */
  const PokemonDetailUrl: string := "https://pokeapi.co/api/v2/pokemon/"

  /** One GET of the template `${url}${id}`, kept as its two parts. */
  datatype Request = Request(url: string, id: int)

  /** What a call resolves to: the (mapped) payloads, the page fetched and the next page to ask for. */
  datatype Page<T> = Page(data: seq<T>, currentPage: int, nextPage: Option<int>)

  /** The payload fields of `GET {base}{id}` that the components read; keys as on the wire. */
  datatype SpritesJson = SpritesJson(front_default: string)
  datatype PokemonJson = PokemonJson(
    id: int, name: string, height: int, weight: int, base_experience: int, sprites: SpritesJson)

  /** The page index a call uses: `pageParam` defaults to 0. */
  function PageParamOf(pageParam: Option<int>): (p: int)
    ensures pageParam.Some? ==> p == pageParam.value
    ensures pageParam.None? ==> p == 0
  {
    pageParam.GetOr(0)
  }

  /**
    The number of requests issued: `Array.from({length: limit})` converts its
    length with ToLength, so a negative limit yields no requests at all.
   */
  function RequestCount(limit: int): (n: nat)
    ensures 0 <= limit ==> n == limit
    ensures limit < 0 ==> n == 0
  {
    if limit < 0 then 0 else limit
  }

  /** The ids requested for page `pageParam`: consecutive, starting right after `pageParam * limit`. */
  function RequestedIds(pageParam: int, limit: int): (ids: seq<int>)
    ensures |ids| == RequestCount(limit)
    ensures forall i :: 0 <= i < |ids| ==> ids[i] == pageParam * limit + i + 1
  {
    Range(pageParam * limit + 1, RequestCount(limit))
  }

  /** Awaits every request in order; rejects as a whole if any one rejects (`Promise.all`). */
  function AwaitAll<R>(net: Request -> Option<R>, rs: seq<Request>): (r: Result<seq<R>>)
    ensures r.Success? <==> forall i :: 0 <= i < |rs| ==> net(rs[i]).Some?
    ensures r.Success? ==> |r.value| == |rs|
    ensures r.Success? ==> forall i :: 0 <= i < |rs| ==> r.value[i] == net(rs[i]).value
    decreases |rs|
  {
    if |rs| == 0 then Success([])
    else
      match net(rs[0])
      case None => Failure
      case Some(x) =>
        match AwaitAll(net, rs[1..])
        case Failure => Failure
        case Success(xs) => Success([x] + xs)
  }

  /** `xs.map(f)`. */
  function MapAll<R, T>(f: R -> T, xs: seq<R>): (ys: seq<T>)
    ensures |ys| == |xs|
    ensures forall i :: 0 <= i < |xs| ==> ys[i] == f(xs[i])
  {
    seq(|xs|, i requires 0 <= i < |xs| => f(xs[i]))
  }

  /** The requests for a page, in the order they are issued. */
  function PageRequests(url: string, ids: seq<int>): (rs: seq<Request>)
    ensures |rs| == |ids|
    ensures forall i :: 0 <= i < |ids| ==> rs[i] == Request(url, ids[i])
  {
    seq(|ids|, i requires 0 <= i < |ids| => Request(url, ids[i]))
  }

  /**
    The body of `fetchPokemonData` once the ids are fixed: await one GET per id,
    map the payloads, report page `p`, and offer `p + 1` iff `limit` items came back.
   */
  function FetchIds<R, T>(url: string, ids: seq<int>, dataMapper: R -> T, p: int, limit: int,
                          net: Request -> Option<R>): (r: Result<Page<T>>)
    ensures r.Success? <==> forall i :: 0 <= i < |ids| ==> net(Request(url, ids[i])).Some?
    ensures r.Success? ==> |r.value.data| == |ids|
    ensures r.Success? ==> forall i :: 0 <= i < |ids| ==>
              r.value.data[i] == dataMapper(net(Request(url, ids[i])).value)
    ensures r.Success? ==> r.value.currentPage == p
    ensures r.Success? ==> r.value.nextPage == if |ids| == limit then Some(p + 1) else None
  {
    match AwaitAll(net, PageRequests(url, ids))
    case Failure => Failure
    case Success(rawData) =>
      var data := MapAll(dataMapper, rawData);
      Success(Page(data, p, if |data| == limit then Some(p + 1) else None))
  }

  /**
    `fetchPokemonData` with a `dataMapper`. The call resolves exactly when every
    requested id is served; it then carries the mapped payloads in request order,
    reports the page it fetched, and offers `pageParam + 1` as the next page
    whenever the limit is a real length (so never `null` for `limit >= 0`).
   */
  function FetchPokemonData<R, T>(url: string, pageParam: Option<int>, limit: int,
                                  dataMapper: R -> T, net: Request -> Option<R>): (r: Result<Page<T>>)
    ensures var ids := RequestedIds(PageParamOf(pageParam), limit);
            r.Success? <==> forall i :: 0 <= i < |ids| ==> net(Request(url, ids[i])).Some?
    ensures r.Success? ==> |r.value.data| == RequestCount(limit)
    ensures var ids := RequestedIds(PageParamOf(pageParam), limit);
            r.Success? ==> forall i :: 0 <= i < |ids| ==>
              r.value.data[i] == dataMapper(net(Request(url, ids[i])).value)
    ensures r.Success? ==> r.value.currentPage == PageParamOf(pageParam)
    ensures r.Success? ==> (r.value.nextPage.Some? <==> 0 <= limit)
    ensures r.Success? && r.value.nextPage.Some? ==> r.value.nextPage.value == PageParamOf(pageParam) + 1
  {
    var p := PageParamOf(pageParam);
    FetchIds(url, RequestedIds(p, limit), dataMapper, p, limit, net)
  }

  /** `fetchPokemonData` without a `dataMapper`: the payloads are returned as they came. */
  function FetchRaw<R>(url: string, pageParam: Option<int>, limit: int,
                       net: Request -> Option<R>): (r: Result<Page<R>>)
    ensures var ids := RequestedIds(PageParamOf(pageParam), limit);
            r.Success? <==> forall i :: 0 <= i < |ids| ==> net(Request(url, ids[i])).Some?
    ensures var ids := RequestedIds(PageParamOf(pageParam), limit);
            r.Success? ==> |r.value.data| == |ids|
    ensures var ids := RequestedIds(PageParamOf(pageParam), limit);
            r.Success? ==> forall i :: 0 <= i < |ids| ==> Some(r.value.data[i]) == net(Request(url, ids[i]))
  {
    FetchPokemonData(url, pageParam, limit, x => x, net)
  }

  /**
    For a fixed limit, pages p and p+1 ask for adjacent id ranges: together they
    are exactly the ids p*limit+1 .. (p+2)*limit, each once.
   */
  lemma ConsecutivePagesContiguous(p: int, limit: nat)
    ensures RequestedIds(p, limit) + RequestedIds(p + 1, limit) == Range(p * limit + 1, 2 * limit)
    ensures forall id :: id in RequestedIds(p, limit) ==> id !in RequestedIds(p + 1, limit)
  {
    assert (p + 1) * limit == p * limit + limit;
    RangeAppend(p * limit + 1, limit, limit);
    var a, b := RequestedIds(p, limit), RequestedIds(p + 1, limit);
    assert forall j :: 0 <= j < |b| ==> b[j] > p * limit + limit;
    forall id | id in a
      ensures id !in b
    {
      var i :| 0 <= i < |a| && a[i] == id;
      assert id <= p * limit + limit;
    }
  }
}
